=== FILE: README.md ===
# Resolution core of a dependency-injection container, in Dafny

This project models the resolution engine of a JavaScript dependency-injection
container (`ResolutionCore` in `src/internal/resolutionCore.js`) and proves
properties of the model.

The container keeps a **binding registry**. It maps each dependency identifier to
the bindings registered for it, in registration order. `resolveParamsWithScope`
resolves one request in six steps:

1. It pushes a new **resolution request** onto the current-request pointer.
2. It rejects the request if its lineage depth exceeds 500.
3. It keeps the bindings of the identifier's slot that support the request.
4. If `multiple` is not set, it demands exactly one such binding.
5. It activates each selected binding in order. Scoped bindings go through a
   cache-or-compute slot. The slot lives in the cache of the root scope or of the
   scope at the binding's level, and is keyed by the dependency identifier.
6. It restores the pointer and returns one value, or the whole collection.

Files and modules:

- `wrappers.dfy` (`Wrappers`): `Option` and `Result`.
- `seqs.dfy` (`Seqs`): order-preserving `Filter` and its characterisation.
- `requests.dfy` (`Requests`): parameters, requests, lineage depth, and nested request chains.
- `scopes.dfy` (`Scopes`): scope levels with a distinguished root sentinel, and the per-level caches.
- `registry.dfy` (`Registry`): bindings, slots, `getSlot`, `getOrCreateSlot` and the four `add*Binding` operations.
- `resolution.dfy` (`Resolution`): the core's state, `findAllBindingsForRequest`, activation and `resolveParamsWithScope`.
- `properties.dfy` (`ResolutionProperties`): properties of whole resolve calls.

The model is functional. The core's state is an immutable record of the
current-request pointer and the registry. It is threaded through pure functions
that return the new state, the scope caches afterwards, the bindings whose
`activate` was called, and a `Result`. The following come from code outside the
core and are passed in as function values in a `Collaborators` record:

- the binding predicate `supportsRequest`;
- the binding operation `activate`;
- JavaScript truthiness, which the cache lookup's `||` tests.

The model follows the code as written, including where its behaviour is surprising:

- The current-request pointer is restored only on the success path (line 46).
  After any error it still points at the new request. Restoring it on every exit
  path, as a `try`/`finally` would, is what keeps the lineage of later requests
  sound. `ResolutionProperties.LineageAfterResolve` and
  `ResolutionProperties.FailedResolveLeaksRequest` state what the code does.
- A numbered scope level with no scope in `_scopesByLevel` makes the code read
  `_cache` of `undefined`. That throws a TypeError, which is modelled as
  `Failure.MissingScope`. It is not one of the three `InjectionError` kinds.
  Bindings activated before the failing one keep what they stored in the caches
  (`Resolution.ActivateAllStopsAt`, and the missing-scope clause of
  `Resolution.ResolveParamsWithScope`).

## Model

| member | source | states |
|---|---|---|
| `Seqs.Filter` | src/internal/resolutionCore.js:52-54 | every element of the result satisfies the predicate |
| `Seqs.FilterCounts` | src/internal/resolutionCore.js:52-54 | filtering keeps each satisfying element exactly as often as it occurs in the input and drops every other element |
| `Seqs.FilterIsSubsequence` | src/internal/resolutionCore.js:52-54 | the filtered elements keep their relative order: the result is a subsequence of the input |
| `Requests.Depth` | src/internal/resolutionCore.js:27-28 | a request's depth is at least 1, and it is 1 exactly when the request has no parent |
| `Requests.NewRequest` | src/internal/resolutionCore.js:26-27 | a new request keeps its parameters, is linked to the request that was current, and is one level deeper than it |
| `Requests.Lineage` | src/internal/resolutionCore.js:26-27 | the chain from a request to the top-level request has as many links as the request's depth, each element's parent is the next one, and the last has no parent |
| `Requests.NestDepth` | src/internal/resolutionCore.js:26-28 | entering n resolve calls one inside another raises the depth of the current request by n |
| `Scopes.CacheFor` | src/internal/resolutionCore.js:37-40 | the root sentinel always selects the root scope's cache; a numbered level selects a cache exactly when `_scopesByLevel` holds that level, and then it is that level's cache |
| `Scopes.WithCache` | src/internal/resolutionCore.js:41-42 | storing into one level's cache changes that cache only: every other level's cache and the set of levels stay as they were |
| `Registry.GetSlot` | src/internal/resolutionCore.js:85-89 | an identifier the registry holds as its own key yields its slot; any other identifier yields an empty sequence |
| `Registry.GetOrCreateSlot` | src/internal/resolutionCore.js:81-83 | afterwards the identifier is registered, with the slot it had (or an empty one), and every other slot is unchanged |
| `Registry.Push` | src/internal/resolutionCore.js:59 | the pushed binding appears at the end of its identifier's slot, that identifier becomes registered, and lookup of every other identifier is unchanged |
| `Registry.AddBinding` | src/internal/resolutionCore.js:57-60 | the returned binding is a transient binding of the given variant for the identifier, and it is appended to that identifier's slot only |
| `Registry.AddConstructorBinding` | src/internal/resolutionCore.js:57-61 | returns a transient constructor binding for the identifier, appended at the end of its slot; other slots unchanged |
| `Registry.AddFunctionBinding` | src/internal/resolutionCore.js:63-67 | returns a transient factory-function binding for the identifier, appended at the end of its slot; other slots unchanged |
| `Registry.AddConstantBinding` | src/internal/resolutionCore.js:69-73 | returns a transient constant binding for the identifier, appended at the end of its slot; other slots unchanged |
| `Registry.AddProviderBinding` | src/internal/resolutionCore.js:75-79 | returns a transient provider binding for the identifier, appended at the end of its slot; other slots unchanged |
| `Registry.LookupAfterPush` | src/internal/resolutionCore.js:59 | after a push, looking up the pushed binding's identifier yields one more binding at the end, and looking up any other identifier yields what it did before |
| `Registry.SlotsOfRegistrations` | src/internal/resolutionCore.js:85-89 | after any sequence of registrations, looking up an identifier yields its earlier bindings followed by exactly the bindings registered for it, in order; an identifier never registered yields the empty sequence |
| `Registry.GetOrCreateSlotAsWritten` | src/internal/resolutionCore.js:82 | as written, the slot `getSlot` returns is stored under the key "undefined" and not under the identifier; no other key changes, and "undefined" is the only key that can be added |
| `Registry.PushAsWritten` | src/internal/resolutionCore.js:81-83 | as written, a registration leaves under "undefined" the identifier's earlier slot with the binding appended; a registered identifier sees the same appended slot, an unregistered identifier other than "undefined" stays without bindings, and no other key changes |
| `Registry.AsWrittenUsesOneKey` | src/internal/resolutionCore.js:81-83 | as written, registrations into an empty registry create no key other than "undefined", whatever identifiers they name |
| `Registry.AsWrittenLosesBinding` | src/internal/resolutionCore.js:81-83 | as written, a binding for a new identifier cannot be looked up under it and replaces the contents of "undefined"; with the intended keying it is found |
| `Registry.AsWrittenTwoRegistrations` | src/internal/resolutionCore.js:69-73 | registering constants for "a" and then "b" as written leaves neither findable; with the intended keying "a" finds its binding |
| `Resolution.NewCore` | src/internal/resolutionCore.js:18-21 | a new core has no request in flight and an empty slot for every identifier |
| `Resolution.FindAllBindingsForRequest` | src/internal/resolutionCore.js:51-55 | every binding returned supports the request |
| `Resolution.FindAllBindingsExact` | src/internal/resolutionCore.js:51-55 | the lookup returns exactly the bindings of the requested identifier's slot that support the request, in slot order, none dropped and none added |
| `Resolution.ActivateOne` | src/internal/resolutionCore.js:37-44 | a transient binding activates and touches no cache; a scoped binding fails only when its level has no scope, with an error naming that level; a truthy cached entry under the identifier is returned with no activation; otherwise the activation result is stored under the identifier in the binding's own cache and returned; afterwards every other level's cache is as it was, and the binding's own cache differs at most in that entry |
| `Resolution.ActivateAll` | src/internal/resolutionCore.js:36-45 | the map succeeds exactly when every scoped binding's level has a scope; it then yields one value per binding, and a fresh activation for each transient one; only entries under the identifier change |
| `Resolution.ActivateAllAppend` | src/internal/resolutionCore.js:36-45 | mapping over two runs of bindings one after the other is mapping over the first and then, unless that failed, over the second against the caches the first left; values and activations concatenate |
| `Resolution.ActivateAllSnoc` | src/internal/resolutionCore.js:36-45 | one more binding after a successful map is activated against the caches the map left: its value, cache update and activation are appended, or its missing scope ends the map with that error |
| `Resolution.ActivateAllStopsAt` | src/internal/resolutionCore.js:36-45 | a map that reaches a binding whose scope is missing fails with that error, and keeps the values, caches and activations of the bindings before it |
| `Resolution.ActivatedAmongBindings` | src/internal/resolutionCore.js:36-45 | the map never activates a binding more often than it occurs among the matched bindings |
| `Resolution.ActivateAllAt` | src/internal/resolutionCore.js:36-45 | in a successful map, the value at position k is what activating the k-th binding yields against the caches the bindings before it left behind |
| `Resolution.ActivateAllValues` | src/internal/resolutionCore.js:36-45 | the same holds at every position of a successful map |
| `Resolution.ActivateAllSingle` | src/internal/resolutionCore.js:47 | mapping over one binding and taking element 0 gives that binding's own activation outcome |
| `Resolution.ResolveParamsWithScope` | src/internal/resolutionCore.js:25-48 | the registry is never changed; depth over 500 fails with MaxActivationDepthExceeded; a single-valued request fails with NoMatchingBinding exactly on zero matches and with AmbiguousMatchingBindings exactly on several; these errors touch no cache and activate nothing; success exactly when the depth is within bounds, the count is acceptable and every scope exists; success restores the request pointer, an error leaves the new request current; a single result is its one match's activation; a `multiple` result holds, in match order, a fresh activation for each transient match, and for every match what activating it yields against the caches the matches before it left behind; a `multiple` success and a missing-scope failure leave exactly the caches and the activations of the map over the matches, and the failure is the map's error; every `InjectionError` carries the request the call created |
| `Resolution.FindAllBindingsAsWritten` | src/internal/resolutionCore.js:52 | as written, the lookup throws whenever no global `dependencyId` exists; otherwise it returns exactly the bindings of that global's slot that support the request, in slot order |
| `Resolution.AsWrittenLookupMissesBinding` | src/internal/resolutionCore.js:51-55 | for a request for "a" that a binding registered for "a" supports, the lookup as written throws or returns nothing, while the intended lookup returns the binding |
| `ResolutionProperties.AllTransientActivate` | src/internal/resolutionCore.js:44 | transient bindings are activated one by one in order, each exactly once, and leave the caches unchanged |
| `ResolutionProperties.MultipleTransientResolve` | src/internal/resolutionCore.js:36-47 | a `multiple` request over transient matches returns one fresh value per match in registry order, also when there is no match |
| `ResolutionProperties.ScopedBindingActivatesOnce` | src/internal/resolutionCore.js:37-43 | when a truthy value is already cached under the identifier, or the activation produces a truthy value, resolving a scoped binding twice against the same scope activates it at most once; the second call returns the same value from the cache |
| `ResolutionProperties.FalsyScopedValueReactivates` | src/internal/resolutionCore.js:41-42 | when nothing truthy is cached and the activation produces a falsy value, a scoped binding is activated again on the second resolve call against the same scope, and both calls return that value |
| `ResolutionProperties.TransientBindingActivatesEachTime` | src/internal/resolutionCore.js:44 | a transient binding is activated again on every resolve call against the same scope, and no cache changes |
| `ResolutionProperties.ScopedBindingsShareCacheEntry` | src/internal/resolutionCore.js:41-42 | when nothing truthy is cached under the identifier and the first binding's value is truthy, two scoped bindings for one identifier at one level share one cache entry: the second returns the first's value and is never activated |
| `ResolutionProperties.MissingScopeSurfaces` | src/internal/resolutionCore.js:37-42 | a request that passes the depth guard and the cardinality checks but has a matched scoped binding with no scope at its level fails with the missing-scope error of the map, keeps its caches and activations, and leaves the new request current |
| `ResolutionProperties.NestedResolutionDepthGuard` | src/internal/resolutionCore.js:16-28 | in a chain of nested resolutions, the last one fails the depth guard exactly when the chain has more than 500 calls |
| `ResolutionProperties.LineageAfterResolve` | src/internal/resolutionCore.js:26-46 | after a resolve call the current request has the depth it had before on success, and one more on any error |
| `ResolutionProperties.FailedResolveLeaksRequest` | src/internal/resolutionCore.js:33-46 | after a failed top-level resolve on a fresh core, the next top-level request is made at depth 2 and not 1 |

## Left out

- Binding variants: how constructor, factory-function, constant and provider bindings match a request and produce a value lives in modules that are not part of this model. The model passes `supportsRequest` and `activate` in as opaque functions.
- `ResolutionRequest` internals and `InjectionError` construction are not part of this model. The request is a record of its parameters and parent. Errors are a datatype carrying the request.
- Requests.Depth: the depth is computed inside `ResolutionRequest`, which is not part of this model. The model assumes a missing parent counts as depth 0, so a top-level request has depth 1 and each nested request is one deeper than its parent. This decides whether the guard on line 28 trips on the 500th or the 501st nested call, and `ResolutionProperties.NestedResolutionDepthGuard` rests on it.
- Registry.AddBinding: the four binding constructors are not part of this model. A new binding is taken to be transient because the constructors are assumed to set `scopeLevel` to `null`. If one left it `undefined`, the `!== null` test on line 37 would send the binding down the scoped path.
- Re-entrant resolution: the core does not model `activate` calling back into `resolveParamsWithScope`, so activation is a pure function. Nested resolution appears as a chain of requests (`Requests.Nest`), and the depth guard is stated over that chain.
- Value identity: a pure `activate` returns equal values for equal inputs. That two activations produce distinct objects is expressed by the trace of activated bindings, not by object identity.
- Scope construction and nesting: scopes are given as a root cache plus a map from level to cache. Aliasing between the root scope and a levelled scope is not modelled. The value of the root sentinel is defined in `rootScopeLevel.js`, which is not part of this model, so it is a separate constructor of `ScopeLevel`.
- Binding scope levels are set by configuration calls outside the core, on binding objects the registry shares. Here a binding's level is a field of the registered value, and resolution accepts any level.
- JavaScript truthiness is an opaque predicate, used only for the `||` of the cache lookup.
- Missing or null `params`, and a missing `dependencyId`, are not modelled.
- Module loading and the inconsistent `./bindings/` and `./binding/` require paths are not modelled.
- Concurrency is not modelled. The code is single-threaded, so the unlocked read-check-write of a cache has no race in a sequential model.
- Resolution.ActivateAll: its own contract gives the value at each position only for transient bindings, and only bounds the caches afterwards and the bindings activated. The value at every position, scoped bindings included, is stated by `Resolution.ActivateAllAt` and `Resolution.ActivateAllValues`. The caches and activations binding by binding are stated by `Resolution.ActivateAllAppend`, `Resolution.ActivateAllSnoc` and `Resolution.ActivateAllStopsAt`.
- JavaScript objects are modelled as plain maps. Three consequences are not modelled:
  - The cache reads on lines 41-42 do not test for an own property. An identifier such as "constructor" or "toString" finds a truthy inherited function there, so a scoped binding for it returns that function and is never activated. `Resolution.CacheHit` counts only entries stored in the cache.
  - A slot or cache entry keyed "__proto__" sets the object's prototype instead of creating an entry. The model treats "__proto__" as an ordinary key.
  - An identifier that is not a string is converted to a property name, and a symbol stays a symbol. Two values with the same string form therefore share a slot and a cache entry. The model takes identifiers to be strings already.
- The scope argument of `binding.activate(scope, req)` is not modelled. The model's `activate` depends on the binding and the request only, so an activation whose value depends on the requesting scope is not covered.
- Exceptions thrown by `activate` or `supportsRequest` are not modelled. In the code such an exception leaves the new request current, and the cache writes of bindings activated earlier in the same map remain. The model's collaborators always return.

## Findings

| source | as written | input that shows it | evidently intended | confidence | as-written member | corrected member |
|---|---|---|---|---|---|---|
| src/internal/resolutionCore.js:52 | looks up the slot of `dependencyId`, a name declared nowhere in the module | any resolve that passes the depth guard, e.g. a request for "a" with one binding registered for "a": the read throws a ReferenceError | look up the slot of the request's dependency identifier | high; not executed | `Resolution.FindAllBindingsAsWritten`, shown by `Resolution.AsWrittenLookupMissesBinding` | `Resolution.FindAllBindingsForRequest`, proved by `Resolution.FindAllBindingsExact` |
| src/internal/resolutionCore.js:82 | stores the slot under `this.bindings[this.dependencyId]`; the core has no such property, so the key is "undefined" | registering constants for "a" and then "b": neither is found by lookup, and "undefined" holds only the second | store the slot under the argument `dependencyId` | high; not executed | `Registry.GetOrCreateSlotAsWritten`, shown by `Registry.AsWrittenTwoRegistrations` | `Registry.GetOrCreateSlot`, proved by `Registry.SlotsOfRegistrations` |

=== FILE: properties.dfy ===
/** Properties of whole resolve calls: caching across calls, the depth guard over a
    chain of nested resolutions, and what an error does to the request lineage. */
module ResolutionProperties {
  import opened Wrappers
  import opened Requests
  import opened Scopes
  import opened Registry
  import opened Resolution

  /** The values of activating each of `bs` afresh, in order. */
  function Fresh<V>(bs: seq<Binding>, req: Request, co: Collaborators<V>): seq<V>
  {
    seq(|bs|, k requires 0 <= k < |bs| => co.activate(bs[k], req))
  }

  lemma FreshCons<V>(bs: seq<Binding>, req: Request, co: Collaborators<V>)
    requires |bs| > 0
    ensures Fresh(bs, req, co) == [co.activate(bs[0], req)] + Fresh(bs[1..], req, co)
  {
  }

  /** Transient bindings are activated one by one, in order, and never touch a cache. */
  lemma {:induction false} AllTransientActivate<V>(bs: seq<Binding>, req: Request, id: Id, scope: Scope<V>, co: Collaborators<V>)
    requires forall k :: 0 <= k < |bs| ==> bs[k].scopeLevel.None?
    ensures ActivateAll(bs, req, id, scope, co) == Run(Fresh(bs, req, co), scope, bs, None)
    decreases |bs|
  {
    if |bs| > 0 {
      assert ActivateOne(bs[0], req, id, scope, co) == Ok(Step(co.activate(bs[0], req), scope, [bs[0]]));
      AllTransientActivate(bs[1..], req, id, scope, co);
      FreshCons(bs, req, co);
      assert bs == [bs[0]] + bs[1..];
    }
  }

  /** A `multiple` request whose matches are all transient returns one freshly activated
      value per match, in registry order, restores the request pointer and leaves the
      caches alone; with no match at all it returns the empty collection. */
  lemma MultipleTransientResolve<V>(core: Core, params: Params, scope: Scope<V>, co: Collaborators<V>)
    requires DepthOk(core, params) && params.multiple
    requires forall k :: 0 <= k < |Matches(core, params, co)| ==> Matches(core, params, co)[k].scopeLevel.None?
    ensures
      var m := Matches(core, params, co);
      ResolveParamsWithScope(core, params, scope, co)
        == Outcome(core, scope, m, Ok(Many(Fresh(m, RequestFor(core, params), co))))
  {
    var req := RequestFor(core, params);
    var pushed := core.(currentRequest := Some(req));
    assert FindAllBindingsForRequest(pushed, req, co.supports) == Matches(core, params, co);
    AllTransientActivate(Matches(core, params, co), req, params.dependencyId, scope, co);
  }

  /** When a truthy value is already cached under the requested identifier, or the
      activation produces a truthy value, a scoped binding resolved twice against the same
      scope is activated at most once: the second call finds the value cached under the
      identifier and returns it without activating anything. */
  lemma ScopedBindingActivatesOnce<V>(core: Core, params: Params, scope: Scope<V>, co: Collaborators<V>, b: Binding)
    requires DepthOk(core, params) && !params.multiple
    requires Matches(core, params, co) == [b]
    requires b.scopeLevel.Some? && CacheFor(scope, b.scopeLevel.value).Some?
    requires
      || CacheHit(CacheFor(scope, b.scopeLevel.value).value, params.dependencyId, co.truthy)
      || co.truthy(co.activate(b, RequestFor(core, params)))
    ensures
      var o1 := ResolveParamsWithScope(core, params, scope, co);
      var o2 := ResolveParamsWithScope(o1.core, params, o1.scope, co);
      && o1.result.Ok? && o1.core == core
      && o2.result == o1.result && o2.core == core && o2.scope == o1.scope
      && |o1.activated| <= 1 && o2.activated == []
  {
    var req := RequestFor(core, params);
    var id := params.dependencyId;
    var level := b.scopeLevel.value;
    var o1 := ResolveParamsWithScope(core, params, scope, co);
    assert ScopesAvailable([b], scope);
    assert o1.result.Ok? && o1.core == core;
    var v := o1.result.value.value;
    var c := CacheFor(scope, level).value;
    assert ActivateOne(b, req, id, scope, co) == Ok(Step(v, o1.scope, o1.activated));
    var c1 := CacheFor(o1.scope, level).value;
    assert id in c1 && c1[id] == v;
    assert co.truthy(v) by {
      if CacheHit(c, id, co.truthy) { assert v == c[id]; } else { assert v == co.activate(b, req); }
    }
    assert ActivateOne(b, req, id, o1.scope, co) == Ok(Step(v, o1.scope, []));
    assert ScopesAvailable([b], o1.scope);
  }

  /** The cache test is truthiness, not presence: a scoped binding whose value is falsy
      (0, "", false, null) is activated again on every resolve call, each time storing
      the falsy value under the identifier once more. */
  lemma FalsyScopedValueReactivates<V>(core: Core, params: Params, scope: Scope<V>, co: Collaborators<V>, b: Binding)
    requires DepthOk(core, params) && !params.multiple
    requires Matches(core, params, co) == [b]
    requires b.scopeLevel.Some? && CacheFor(scope, b.scopeLevel.value).Some?
    requires !CacheHit(CacheFor(scope, b.scopeLevel.value).value, params.dependencyId, co.truthy)
    requires !co.truthy(co.activate(b, RequestFor(core, params)))
    ensures
      var v := co.activate(b, RequestFor(core, params));
      var o1 := ResolveParamsWithScope(core, params, scope, co);
      var o2 := ResolveParamsWithScope(o1.core, params, o1.scope, co);
      && o1.result == Ok(Single(v)) && o1.core == core && o1.activated == [b]
      && o2.result == o1.result && o2.core == core && o2.scope == o1.scope && o2.activated == [b]
  {
    var req := RequestFor(core, params);
    var id := params.dependencyId;
    var level := b.scopeLevel.value;
    var v := co.activate(b, req);
    assert ScopesAvailable([b], scope);
    var o1 := ResolveParamsWithScope(core, params, scope, co);
    assert ActivateOne(b, req, id, scope, co) == Ok(Step(o1.result.value.value, o1.scope, o1.activated));
    var c1 := CacheFor(o1.scope, level).value;
    assert !CacheHit(c1, id, co.truthy) && c1[id := v] == c1;
    assert WithCache(o1.scope, level, c1) == o1.scope by {
      if level.RootScopeLevel? { } else { assert o1.scope.levelCaches[level.index := c1] == o1.scope.levelCaches; }
    }
    assert ActivateOne(b, req, id, o1.scope, co) == Ok(Step(v, o1.scope, [b]));
    assert ScopesAvailable([b], o1.scope);
  }

  /** A transient binding is activated on every resolve call, even against the same scope,
      and the caches stay as they were. */
  lemma TransientBindingActivatesEachTime<V>(core: Core, params: Params, scope: Scope<V>, co: Collaborators<V>, b: Binding)
    requires DepthOk(core, params) && !params.multiple
    requires Matches(core, params, co) == [b]
    requires b.scopeLevel.None?
    ensures
      var o1 := ResolveParamsWithScope(core, params, scope, co);
      var o2 := ResolveParamsWithScope(o1.core, params, o1.scope, co);
      && o1 == Outcome(core, scope, [b], Ok(Single(co.activate(b, RequestFor(core, params)))))
      && o2 == o1
      && o1.activated + o2.activated == [b, b]
  {
    assert ScopesAvailable([b], scope);
  }

  /** The cache key is the dependency identifier, not the binding: when two bindings for
      one identifier share a scope level, nothing truthy is cached yet and the first
      binding's value is truthy, the second is answered from the entry the first one
      stored and is never activated. */
  lemma ScopedBindingsShareCacheEntry<V>(core: Core, params: Params, scope: Scope<V>, co: Collaborators<V>, b1: Binding, b2: Binding)
    requires DepthOk(core, params) && params.multiple
    requires Matches(core, params, co) == [b1, b2]
    requires b1.scopeLevel.Some? && b2.scopeLevel == b1.scopeLevel
    requires CacheFor(scope, b1.scopeLevel.value).Some?
    requires !CacheHit(CacheFor(scope, b1.scopeLevel.value).value, params.dependencyId, co.truthy)
    requires co.truthy(co.activate(b1, RequestFor(core, params)))
    ensures
      var v := co.activate(b1, RequestFor(core, params));
      var o := ResolveParamsWithScope(core, params, scope, co);
      o.result == Ok(Many([v, v])) && o.activated == [b1]
  {
    var req := RequestFor(core, params);
    var id := params.dependencyId;
    var level := b1.scopeLevel.value;
    var v := co.activate(b1, req);
    var s1 := ActivateOne(b1, req, id, scope, co).value;
    assert s1.value == v && s1.activated == [b1];
    var c1 := CacheFor(s1.scope, level).value;
    assert CacheHit(c1, id, co.truthy);
    assert ActivateOne(b2, req, id, s1.scope, co) == Ok(Step(v, s1.scope, []));
    assert [b1, b2][1..] == [b2];
    assert [b2][1..] == [];
    assert ActivateAll([b2], req, id, s1.scope, co) == Run([v], s1.scope, [], None);
    assert ActivateAll([b1, b2], req, id, scope, co) == Run([v, v], s1.scope, [b1], None);
    var pushed := core.(currentRequest := Some(req));
    assert FindAllBindingsForRequest(pushed, req, co.supports) == [b1, b2];
  }

  /** A request that passes the depth guard and the cardinality checks but reaches a
      matched binding whose scope level has no scope fails with `MissingScope`, not with
      one of the three `InjectionError` kinds. */
  lemma MissingScopeSurfaces<V>(core: Core, params: Params, scope: Scope<V>, co: Collaborators<V>)
    requires DepthOk(core, params)
    requires params.multiple || |Matches(core, params, co)| == 1
    requires !ScopesAvailable(Matches(core, params, co), scope)
    ensures
      var o := ResolveParamsWithScope(core, params, scope, co);
      var r := ActivateAll(Matches(core, params, co), RequestFor(core, params), params.dependencyId, scope, co);
      && o.result.Err? && o.result.error.MissingScope?
      && r.failure == Some(o.result.error) && o.scope == r.scope && o.activated == r.activated
      && o.core.currentRequest == Some(RequestFor(core, params))
  {
  }

  /** Entered one inside another, the resolve calls for `ps` and then `params` fail the
      depth guard exactly when this makes more than 500 nested resolutions. */
  lemma NestedResolutionDepthGuard<V>(ps: seq<Params>, core: Core, params: Params, scope: Scope<V>, co: Collaborators<V>)
    requires core.currentRequest == Nest(ps, None)
    ensures (|ps| + 1 > MAX_ACTIVATION_DEPTH) <==>
      IsInjectionError(ResolveParamsWithScope(core, params, scope, co).result, MaxActivationDepthExceeded, core, params)
  {
    NestDepth(ps, None);
  }

  /** The request pointer after a resolve call: unchanged on success, one level deeper
      after any error, so the next call is made one level too deep. */
  lemma LineageAfterResolve<V>(core: Core, params: Params, scope: Scope<V>, co: Collaborators<V>)
    ensures
      var o := ResolveParamsWithScope(core, params, scope, co);
      ParentDepth(o.core.currentRequest)
        == if o.result.Ok? then ParentDepth(core.currentRequest) else ParentDepth(core.currentRequest) + 1
  {
  }

  /** On a fresh core, resolving anything single-valued fails with NoMatchingBinding, and
      the next top-level request is then made at depth 2 rather than 1. */
  lemma FailedResolveLeaksRequest<V>(params: Params, next: Params, scope: Scope<V>, co: Collaborators<V>)
    requires !params.multiple
    ensures
      var o := ResolveParamsWithScope(NewCore(), params, scope, co);
      && IsInjectionError(o.result, NoMatchingBinding, NewCore(), params)
      && Depth(RequestFor(o.core, next)) == 2
  {
    assert Matches(NewCore(), params, co) == [];
  }
}

=== FILE: registry.dfy ===
/** The binding registry of the resolution core: for every dependency identifier,
    the bindings registered for it in registration order. */
module Registry {
  import opened Wrappers
  import opened Seqs
  import opened Requests
  import opened Scopes

  /** The four binding variants the core can create. How each matches and activates
      is the variant's own business and is not part of this model. */
  datatype BindingKind = ConstructorBinding | FunctionBinding | ConstantBinding | ProviderBinding

  /** An opaque handle on what a binding was created from: the constructor, the
      factory function, the constant value or the provider function. */
  type Recipe = nat

  /** A registered binding. `scopeLevel` is `None` for a transient binding, standing for
      the `null` the binding constructors are assumed to set; it is set by configuration
      calls outside the core after registration. */
  datatype Binding = Binding(dependencyId: Id, kind: BindingKind, recipe: Recipe, scopeLevel: Option<ScopeLevel>)

  /** `this.bindings`: the ordered slot of bindings for each registered identifier. */
  type Slots = map<Id, seq<Binding>>

  /** The property name an undefined key is stored under in a JavaScript object. */
  const UndefinedKey: Id := "undefined"

  /** `getSlot`: the stored slot, or a fresh empty sequence for an unregistered identifier. */
  function GetSlot(slots: Slots, d: Id): (s: seq<Binding>)
    ensures d in slots ==> s == slots[d]
    ensures d !in slots ==> s == []
  {
    if d in slots then slots[d] else []
  }

  /** `getOrCreateSlot(d)` with the intended keying: `d` is registered afterwards, with
      the slot `getSlot` saw, and nothing else changes. */
  function GetOrCreateSlot(slots: Slots, d: Id): (out: (Slots, seq<Binding>))
    ensures out.0.Keys == slots.Keys + {d}
    ensures out.0[d] == out.1
    ensures d in slots ==> out.1 == slots[d]
    ensures d !in slots ==> out.1 == []
    ensures out.0 - {d} == slots - {d}
  {
    var slot := GetSlot(slots, d);
    (slots[d := slot], slot)
  }

  /** `d` is registered and lookup sees exactly one more binding, `b`, at the end of its
      slot; every other identifier's entry is as before. */
  ghost predicate AppendedOnly(slots: Slots, slots': Slots, d: Id, b: Binding)
  {
    && d in slots'
    && GetSlot(slots', d) == GetSlot(slots, d) + [b]
    && slots' - {d} == slots - {d}
  }

  /** `getOrCreateSlot(b.dependencyId).push(b)`: the slot array is shared with the
      registry, so the push lands in the registry. */
  function Push(slots: Slots, b: Binding): (slots': Slots)
    ensures AppendedOnly(slots, slots', b.dependencyId, b)
  {
    var (created, slot) := GetOrCreateSlot(slots, b.dependencyId);
    created[b.dependencyId := slot + [b]]
  }

  /** What `add*Binding` hands back: the new registry and the created binding. */
  datatype Registered = Registered(slots: Slots, binding: Binding)

  /** Shared shape of the four `add*Binding` operations: create a transient binding of
      the given variant for `d` and append it to `d`'s slot. */
  function AddBinding(slots: Slots, kind: BindingKind, d: Id, recipe: Recipe): (r: Registered)
    ensures r.binding == Binding(d, kind, recipe, None)
    ensures AppendedOnly(slots, r.slots, d, r.binding)
  {
    var b := Binding(d, kind, recipe, None);
    Registered(Push(slots, b), b)
  }

  function AddConstructorBinding(slots: Slots, d: Id, ctor: Recipe): (r: Registered)
    ensures r.binding == Binding(d, ConstructorBinding, ctor, None)
    ensures AppendedOnly(slots, r.slots, d, r.binding)
  {
    AddBinding(slots, ConstructorBinding, d, ctor)
  }

  function AddFunctionBinding(slots: Slots, d: Id, factoryFunc: Recipe): (r: Registered)
    ensures r.binding == Binding(d, FunctionBinding, factoryFunc, None)
    ensures AppendedOnly(slots, r.slots, d, r.binding)
  {
    AddBinding(slots, FunctionBinding, d, factoryFunc)
  }

  function AddConstantBinding(slots: Slots, d: Id, val: Recipe): (r: Registered)
    ensures r.binding == Binding(d, ConstantBinding, val, None)
    ensures AppendedOnly(slots, r.slots, d, r.binding)
  {
    AddBinding(slots, ConstantBinding, d, val)
  }

  function AddProviderBinding(slots: Slots, d: Id, providerFunc: Recipe): (r: Registered)
    ensures r.binding == Binding(d, ProviderBinding, providerFunc, None)
    ensures AppendedOnly(slots, r.slots, d, r.binding)
  {
    AddBinding(slots, ProviderBinding, d, providerFunc)
  }

  /** Selects the bindings made for `d`. */
  function ForId(d: Id): Binding -> bool
  {
    (b: Binding) => b.dependencyId == d
  }

  /** Registers `bs` one after the other, each under its own identifier. */
  function RegisterAll(slots: Slots, bs: seq<Binding>): Slots
    decreases |bs|
  {
    if |bs| == 0 then slots
    else Push(RegisterAll(slots, bs[..|bs| - 1]), bs[|bs| - 1])
  }

  /** After any sequence of registrations, looking up `d` yields the bindings that were
      already there followed by those registered for `d`, in registration order; an
      identifier never registered yields the empty sequence. */
  lemma {:induction false} SlotsOfRegistrations(slots: Slots, bs: seq<Binding>, d: Id)
    ensures GetSlot(RegisterAll(slots, bs), d) == GetSlot(slots, d) + Filter(bs, ForId(d))
    decreases |bs|
  {
    if |bs| > 0 {
      var init, last := bs[..|bs| - 1], bs[|bs| - 1];
      var before := RegisterAll(slots, init);
      SlotsOfRegistrations(slots, init, d);
      LookupAfterPush(before, last, d);
      assert bs == init + [last];
      FilterSnoc(init, last, ForId(d));
      var base, kept := GetSlot(slots, d), Filter(init, ForId(d));
      var added := if last.dependencyId == d then [last] else [];
      assert GetSlot(RegisterAll(slots, bs), d) == (base + kept) + added;
      assert (base + kept) + added == base + (kept + added);
    }
  }

  /** One push, seen through lookup of any identifier. */
  lemma LookupAfterPush(slots: Slots, b: Binding, d: Id)
    ensures GetSlot(Push(slots, b), d) == GetSlot(slots, d) + (if b.dependencyId == d then [b] else [])
  {
    if b.dependencyId != d {
      var after := Push(slots, b);
      assert d in after <==> d in after - {b.dependencyId};
      assert d in after ==> after[d] == (after - {b.dependencyId})[d];
      assert GetSlot(slots, d) + [] == GetSlot(slots, d);
    }
  }

  // ---------------------------------------------------------------------------
  // getOrCreateSlot as written: `this.bindings[this.dependencyId] = ...`. The core
  // object has no `dependencyId` property, so the key is `undefined`, stored under
  // the property name "undefined".

  /** `getOrCreateSlot` as written: the slot `getSlot(d)` returns is stored under
      "undefined" instead of under `d`. */
  function GetOrCreateSlotAsWritten(slots: Slots, d: Id): (out: (Slots, seq<Binding>))
    ensures out.0.Keys == slots.Keys + {UndefinedKey}
    ensures out.1 == GetSlot(slots, d)
    ensures out.0[UndefinedKey] == out.1
    ensures out.0 - {UndefinedKey} == slots - {UndefinedKey}
  {
    var slot := GetSlot(slots, d);
    (slots[UndefinedKey := slot], slot)
  }

  /** `getOrCreateSlot(d).push(b)` as written. When `d` was registered the array `getSlot`
      returned is now stored under both `d` and "undefined", and the push shows under both;
      otherwise the fresh array lives only under "undefined". */
  function PushAsWritten(slots: Slots, b: Binding): (r: Slots)
    ensures GetSlot(r, UndefinedKey) == GetSlot(slots, b.dependencyId) + [b]
    ensures b.dependencyId in slots ==> GetSlot(r, b.dependencyId) == slots[b.dependencyId] + [b]
    ensures b.dependencyId !in slots && b.dependencyId != UndefinedKey ==> GetSlot(r, b.dependencyId) == []
    ensures r - {UndefinedKey, b.dependencyId} == slots - {UndefinedKey, b.dependencyId}
  {
    var d := b.dependencyId;
    var (created, slot) := GetOrCreateSlotAsWritten(slots, d);
    if d in slots then created[UndefinedKey := slot + [b]][d := slot + [b]]
    else created[UndefinedKey := slot + [b]]
  }

  function RegisterAllAsWritten(slots: Slots, bs: seq<Binding>): Slots
    decreases |bs|
  {
    if |bs| == 0 then slots
    else PushAsWritten(RegisterAllAsWritten(slots, bs[..|bs| - 1]), bs[|bs| - 1])
  }

  /** As written, registrations into an empty registry only ever create the one key
      "undefined", whatever identifiers they were made for. */
  lemma {:induction false} AsWrittenUsesOneKey(bs: seq<Binding>)
    ensures RegisterAllAsWritten(map[], bs).Keys <= {UndefinedKey}
    decreases |bs|
  {
    if |bs| > 0 {
      AsWrittenUsesOneKey(bs[..|bs| - 1]);
    }
  }

  /** As written, a binding registered for a new identifier other than "undefined" cannot
      be found under that identifier, and it replaces whatever "undefined" held; with the
      intended keying it is found at the end of its slot. */
  lemma AsWrittenLosesBinding(slots: Slots, b: Binding)
    requires b.dependencyId !in slots && b.dependencyId != UndefinedKey
    ensures PushAsWritten(slots, b).Keys == slots.Keys + {UndefinedKey}
    ensures GetSlot(PushAsWritten(slots, b), b.dependencyId) == []
    ensures GetSlot(PushAsWritten(slots, b), UndefinedKey) == [b]
    ensures GetSlot(Push(slots, b), b.dependencyId) == [b]
  {
  }

  /** Concretely: registering constants for "a" then "b" leaves neither findable, and only
      the second survives under "undefined". */
  lemma AsWrittenTwoRegistrations()
    ensures
      var a := Binding("a", ConstantBinding, 1, None);
      var b := Binding("b", ConstantBinding, 2, None);
      var r := RegisterAllAsWritten(map[], [a, b]);
      && GetSlot(r, "a") == [] && GetSlot(r, "b") == [] && GetSlot(r, UndefinedKey) == [b]
      && GetSlot(RegisterAll(map[], [a, b]), "a") == [a]
  {
    var a := Binding("a", ConstantBinding, 1, None);
    var b := Binding("b", ConstantBinding, 2, None);
    var empty: Slots := map[];
    assert [a, b][..1] == [a];
    assert [a][..0] == [];
    var r1 := PushAsWritten(empty, a);
    assert RegisterAllAsWritten(empty, [a]) == r1;
    AsWrittenLosesBinding(empty, a);
    assert r1.Keys == {UndefinedKey};
    var r2 := PushAsWritten(r1, b);
    assert RegisterAllAsWritten(empty, [a, b]) == r2;
    AsWrittenLosesBinding(r1, b);
    assert "a" !in r2;
    assert RegisterAll(empty, [a]) == Push(empty, a);
    assert RegisterAll(empty, [a, b]) == Push(Push(empty, a), b);
  }
}

=== FILE: requests.dfy ===
/** Resolution parameters and resolution requests: one request per resolve call,
    linked to the request that was in flight when it was made. */
module Requests {
  import opened Wrappers

  /** A dependency identifier, used as a property name of a JavaScript object. Identifiers
      are taken to be strings already; the conversion of other values to property names is
      not modelled. */
  type Id = string

  /** What the caller asks for. `hints` stands for the binding-selection metadata
      (names, tags) that binding predicates consult; the core never reads it. */
  datatype Params = Params(dependencyId: Id, multiple: bool, hints: map<string, string>)

  /** A resolution request and the lineage link to its parent request. */
  datatype Request = Request(params: Params, parent: Option<Request>)

  /** Lineage depth, as `ResolutionRequest` is assumed to compute it (its code is not part
      of this model): a request without parent has depth 1, otherwise one more than its
      parent. */
  function Depth(r: Request): (d: nat)
    ensures d >= 1
    ensures d == 1 <==> r.parent.None?
  {
    match r.parent
    case None => 1
    case Some(p) => 1 + Depth(p)
  }

  /** Depth of the request a new one is made under; a missing parent counts as 0. */
  function ParentDepth(parent: Option<Request>): nat
  {
    match parent
    case None => 0
    case Some(p) => Depth(p)
  }

  /** `new ResolutionRequest(params, parentRequest)`: the new request is one deeper than its parent. */
  function NewRequest(params: Params, parent: Option<Request>): (r: Request)
    ensures r.params == params && r.parent == parent
    ensures Depth(r) == ParentDepth(parent) + 1
  {
    Request(params, parent)
  }

  /** The chain of requests from `r` back to the top-level request. */
  function Lineage(r: Request): (l: seq<Request>)
    ensures |l| == Depth(r)
    ensures l[0] == r
    ensures l[|l| - 1].parent.None?
    ensures forall i :: 0 <= i < |l| - 1 ==> l[i].parent == Some(l[i + 1])
  {
    match r.parent
    case None => [r]
    case Some(p) => [r] + Lineage(p)
  }

  /** The current-request pointer after resolve calls for `ps` have been entered one
      inside the other (each activation starting the next), starting from `parent`. */
  function Nest(ps: seq<Params>, parent: Option<Request>): Option<Request>
    decreases |ps|
  {
    if |ps| == 0 then parent
    else Nest(ps[1..], Some(NewRequest(ps[0], parent)))
  }

  /** Entering `n` nested resolutions adds `n` to the lineage depth. */
  lemma {:induction false} NestDepth(ps: seq<Params>, parent: Option<Request>)
    ensures ParentDepth(Nest(ps, parent)) == ParentDepth(parent) + |ps|
    decreases |ps|
  {
    if |ps| > 0 {
      NestDepth(ps[1..], Some(NewRequest(ps[0], parent)));
    }
  }
}

=== FILE: resolution.dfy ===
/** The resolution engine: the core's state, the lookup of matching bindings,
    activation with scope caching, and `resolveParamsWithScope` with its depth guard
    and cardinality checks. */
module Resolution {
  import opened Wrappers
  import opened Seqs
  import opened Requests
  import opened Scopes
  import opened Registry

  /** The fixed bound on lineage depth. */
  const MAX_ACTIVATION_DEPTH: nat := 500

  /** The three kinds of `InjectionError` the core raises. */
  datatype ErrorType = MaxActivationDepthExceeded | NoMatchingBinding | AmbiguousMatchingBindings

  /** What a resolution can throw: an `InjectionError` carrying the offending request, or
      the TypeError raised when a binding's scope level has no scope in `_scopesByLevel`. */
  datatype Failure =
    | InjectionError(errorType: ErrorType, request: Request)
    | MissingScope(level: int)

  /** A successful resolution: one value, or all of them for a `multiple` request. */
  datatype Resolved<V> = Single(value: V) | Many(values: seq<V>)

  /** The state of a `ResolutionCore`: the in-flight request pointer and the registry. */
  datatype Core = Core(currentRequest: Option<Request>, bindings: Slots)

  /** A fresh core: no request in flight, nothing registered. */
  function NewCore(): (c: Core)
    ensures c.currentRequest.None?
    ensures forall d :: GetSlot(c.bindings, d) == []
  {
    Core(None, map[])
  }

  /** What the core consumes from code it does not own: a binding's `supportsRequest`,
      its `activate`, and JavaScript truthiness of produced values (the `||` of the
      cache lookup). */
  datatype Collaborators<!V> = Collaborators(
    supports: (Binding, Request) -> bool,
    activate: (Binding, Request) -> V,
    truthy: V -> bool)

  function Supporting(supports: (Binding, Request) -> bool, req: Request): Binding -> bool
  {
    b => supports(b, req)
  }

  /** `findAllBindingsForRequest` with the slot looked up by the request's identifier:
      bindings of that slot, each supporting the request. */
  function FindAllBindingsForRequest(core: Core, req: Request, supports: (Binding, Request) -> bool): (r: seq<Binding>)
    ensures forall i :: 0 <= i < |r| ==> supports(r[i], req)
  {
    Filter(GetSlot(core.bindings, req.params.dependencyId), Supporting(supports, req))
  }

  /** The lookup returns exactly the bindings of the requested identifier's slot that
      support the request: none dropped, none added, in slot order. */
  lemma FindAllBindingsExact(core: Core, req: Request, supports: (Binding, Request) -> bool)
    ensures var slot := GetSlot(core.bindings, req.params.dependencyId);
      var r := FindAllBindingsForRequest(core, req, supports);
      && (forall b :: multiset(r)[b] == if supports(b, req) then multiset(slot)[b] else 0)
      && IsSubsequence(r, slot)
  {
    var slot := GetSlot(core.bindings, req.params.dependencyId);
    FilterCounts(slot, Supporting(supports, req));
    FilterIsSubsequence(slot, Supporting(supports, req));
  }

  // ---------------------------------------------------------------------------
  // Activation

  /** The outcome of activating one binding: its value, the scope caches afterwards,
      and the bindings whose `activate` was called (none on a cache hit). */
  datatype Step<V> = Step(value: V, scope: Scope<V>, activated: seq<Binding>)

  /** The left operand of `cache[id] || binding.activate(...)` decides: a truthy stored value. */
  predicate CacheHit<V>(c: Cache<V>, id: Id, truthy: V -> bool)
  {
    id in c && truthy(c[id])
  }

  /** Resolves one matching binding for identifier `id`. A transient binding always
      activates and leaves the caches alone. A scoped one consults the cache of its
      scope under `id`: a truthy entry is returned without activation, otherwise the
      activation result is stored under `id` and returned. */
  function ActivateOne<V>(b: Binding, req: Request, id: Id, scope: Scope<V>, co: Collaborators<V>): (r: Result<Step<V>, Failure>)
    ensures r.Err? <==> b.scopeLevel.Some? && CacheFor(scope, b.scopeLevel.value).None?
    ensures r.Err? ==> r.error == MissingScope(b.scopeLevel.value.index)
    ensures r.Ok? ==> r.value.activated == [] || r.value.activated == [b]
    ensures r.Ok? && b.scopeLevel.None? ==> r.value == Step(co.activate(b, req), scope, [b])
    ensures r.Ok? && b.scopeLevel.Some? ==>
      var c := CacheFor(scope, b.scopeLevel.value).value;
      var c' := CacheFor(r.value.scope, b.scopeLevel.value);
      && c'.Some? && id in c'.value && c'.value[id] == r.value.value
      && OnlyKeyChanged(scope, r.value.scope, id)
      && r.value.scope == WithCache(scope, b.scopeLevel.value, c'.value)
      && (CacheHit(c, id, co.truthy) ==> r.value == Step(c[id], scope, []))
      && (!CacheHit(c, id, co.truthy) ==>
            && r.value.value == co.activate(b, req) && r.value.activated == [b]
            && c'.value == c[id := r.value.value])
  {
    match b.scopeLevel
    case None => Ok(Step(co.activate(b, req), scope, [b]))
    case Some(level) =>
      match CacheFor(scope, level)
      case None => Err(MissingScope(level.index))
      case Some(c) =>
        if CacheHit(c, id, co.truthy) then Ok(Step(c[id], scope, []))
        else
          var v := co.activate(b, req);
          Ok(Step(v, WithCache(scope, level, c[id := v]), [b]))
  }

  /** Every scope level the bindings `bs` are tagged with has a scope. */
  ghost predicate ScopesAvailable<V>(bs: seq<Binding>, scope: Scope<V>)
  {
    forall k :: 0 <= k < |bs| && bs[k].scopeLevel.Some? ==> CacheFor(scope, bs[k].scopeLevel.value).Some?
  }

  /** The outcome of `bindings.map(...)`: the values, the caches afterwards, the
      activated bindings, and the failure that stopped the map, if any. */
  datatype Run<V> = Run(values: seq<V>, scope: Scope<V>, activated: seq<Binding>, failure: Option<Failure>)

  /** Resolves `bs` in order, threading the scope caches from one binding to the next. */
  function ActivateAll<V>(bs: seq<Binding>, req: Request, id: Id, scope: Scope<V>, co: Collaborators<V>): (r: Run<V>)
    ensures r.failure.None? <==> ScopesAvailable(bs, scope)
    ensures r.failure.Some? ==> r.failure.value.MissingScope?
    ensures r.failure.None? ==> |r.values| == |bs|
    ensures r.failure.None? ==>
      forall k :: 0 <= k < |bs| && bs[k].scopeLevel.None? ==> r.values[k] == co.activate(bs[k], req)
    ensures OnlyKeyChanged(scope, r.scope, id)
    decreases |bs|
  {
    if |bs| == 0 then Run([], scope, [], None)
    else
      match ActivateOne(bs[0], req, id, scope, co)
      case Err(e) => Run([], scope, [], Some(e))
      case Ok(step) =>
        var rest := ActivateAll(bs[1..], req, id, step.scope, co);
        assert bs == [bs[0]] + bs[1..];
        assert step.scope.levelCaches.Keys == scope.levelCaches.Keys by {
          if bs[0].scopeLevel.Some? { }
        }
        assert ScopesAvailable(bs[1..], step.scope) <==> ScopesAvailable(bs[1..], scope);
        OnlyKeyChangedTrans(scope, step.scope, rest.scope, id);
        Run([step.value] + rest.values, rest.scope, step.activated + rest.activated, rest.failure)
  }

  /** No binding is activated more often than it occurs among the bindings mapped over. */
  lemma {:induction false} ActivatedAmongBindings<V>(bs: seq<Binding>, req: Request, id: Id, scope: Scope<V>, co: Collaborators<V>)
    ensures multiset(ActivateAll(bs, req, id, scope, co).activated) <= multiset(bs)
    decreases |bs|
  {
    if |bs| > 0 {
      var one := ActivateOne(bs[0], req, id, scope, co);
      if one.Ok? {
        var step := one.value;
        var rest := ActivateAll(bs[1..], req, id, step.scope, co);
        ActivatedAmongBindings(bs[1..], req, id, step.scope, co);
        assert ActivateAll(bs, req, id, scope, co).activated == step.activated + rest.activated;
        assert multiset(step.activated) <= multiset([bs[0]]) by {
          assert step.activated == [] || step.activated == [bs[0]];
        }
        SubMultisetAppend(step.activated, rest.activated, [bs[0]], bs[1..]);
        assert bs == [bs[0]] + bs[1..];
      }
    }
  }

  /** Mapping over a single binding is activating that binding. */
  lemma ActivateAllSingle<V>(b: Binding, req: Request, id: Id, scope: Scope<V>, co: Collaborators<V>)
    requires ActivateAll([b], req, id, scope, co).failure.None?
    ensures var r := ActivateAll([b], req, id, scope, co);
      ActivateOne(b, req, id, scope, co) == Ok(Step(r.values[0], r.scope, r.activated))
  {
    var step := ActivateOne(b, req, id, scope, co).value;
    assert [b][1..] == [];
    assert step.activated + [] == step.activated;
  }

  /** One step of the map: the first binding, then the rest against the caches it left. */
  lemma ActivateAllCons<V>(bs: seq<Binding>, req: Request, id: Id, scope: Scope<V>, co: Collaborators<V>)
    requires |bs| > 0
    ensures
      var one := ActivateOne(bs[0], req, id, scope, co);
      var rest := if one.Ok? then ActivateAll(bs[1..], req, id, one.value.scope, co) else Run([], scope, [], None);
      ActivateAll(bs, req, id, scope, co) ==
        if one.Err? then Run([], scope, [], Some(one.error))
        else Run([one.value.value] + rest.values, rest.scope, one.value.activated + rest.activated, rest.failure)
  {
  }

  /** Mapping over `a + b` is mapping over `a` and then, unless that failed, over `b`
      against the caches `a` left behind. */
  lemma {:induction false} ActivateAllAppend<V>(a: seq<Binding>, b: seq<Binding>, req: Request, id: Id, scope: Scope<V>, co: Collaborators<V>)
    ensures
      var ra := ActivateAll(a, req, id, scope, co);
      var rb := ActivateAll(b, req, id, ra.scope, co);
      ActivateAll(a + b, req, id, scope, co) ==
        if ra.failure.Some? then ra
        else Run(ra.values + rb.values, rb.scope, ra.activated + rb.activated, rb.failure)
    decreases |a|
  {
    if |a| == 0 {
      assert a + b == b;
    } else {
      var ab := a + b;
      assert ab[0] == a[0] && ab[1..] == a[1..] + b;
      ActivateAllCons(a, req, id, scope, co);
      ActivateAllCons(ab, req, id, scope, co);
      var one := ActivateOne(a[0], req, id, scope, co);
      if one.Ok? {
        var step := one.value;
        ActivateAllAppend(a[1..], b, req, id, step.scope, co);
        var rest := ActivateAll(a[1..], req, id, step.scope, co);
        var ra := Run([step.value] + rest.values, rest.scope, step.activated + rest.activated, rest.failure);
        assert ActivateAll(a, req, id, scope, co) == ra;
        var tail := ActivateAll(ab[1..], req, id, step.scope, co);
        assert ActivateAll(ab, req, id, scope, co) ==
          Run([step.value] + tail.values, tail.scope, step.activated + tail.activated, tail.failure);
        if rest.failure.None? {
          var rb := ActivateAll(b, req, id, rest.scope, co);
          assert tail == Run(rest.values + rb.values, rb.scope, rest.activated + rb.activated, rb.failure);
          ConcatAssoc([step.value], rest.values, rb.values);
          ConcatAssoc(step.activated, rest.activated, rb.activated);
        } else {
          assert tail == rest;
        }
      }
    }
  }

  /** One more binding at the end of a successful map is activated against the caches
      the map left behind. */
  lemma ActivateAllSnoc<V>(bs: seq<Binding>, b: Binding, req: Request, id: Id, scope: Scope<V>, co: Collaborators<V>)
    requires ActivateAll(bs, req, id, scope, co).failure.None?
    ensures
      var r := ActivateAll(bs, req, id, scope, co);
      var one := ActivateOne(b, req, id, r.scope, co);
      ActivateAll(bs + [b], req, id, scope, co) ==
        if one.Ok? then Run(r.values + [one.value.value], one.value.scope, r.activated + one.value.activated, None)
        else Run(r.values, r.scope, r.activated, Some(one.error))
  {
    var r := ActivateAll(bs, req, id, scope, co);
    ActivateAllAppend(bs, [b], req, id, scope, co);
    assert [b][1..] == [];
    var one := ActivateOne(b, req, id, r.scope, co);
    if one.Ok? {
      assert ActivateAll([b], req, id, r.scope, co) == Run([one.value.value], one.value.scope, one.value.activated, None);
    } else {
      assert r.values + [] == r.values && r.activated + [] == r.activated;
    }
  }

  /** A map that reaches a binding whose scope is missing stops there: it fails with that
      error, and the values, caches and activations of the bindings before it stand. */
  lemma ActivateAllStopsAt<V>(bs: seq<Binding>, k: nat, req: Request, id: Id, scope: Scope<V>, co: Collaborators<V>)
    requires k < |bs|
    requires ActivateAll(bs[..k], req, id, scope, co).failure.None?
    requires ActivateOne(bs[k], req, id, ActivateAll(bs[..k], req, id, scope, co).scope, co).Err?
    ensures
      var r := ActivateAll(bs[..k], req, id, scope, co);
      var one := ActivateOne(bs[k], req, id, r.scope, co);
      ActivateAll(bs, req, id, scope, co) == Run(r.values, r.scope, r.activated, Some(one.error))
  {
    var r := ActivateAll(bs[..k], req, id, scope, co);
    assert bs == bs[..k] + bs[k..];
    ActivateAllAppend(bs[..k], bs[k..], req, id, scope, co);
    assert bs[k..][0] == bs[k];
    assert r.values + [] == r.values && r.activated + [] == r.activated;
  }

  /** The value the map produces for `bs[k]` is what activating `bs[k]` yields against the
      caches the bindings before it left behind. */
  ghost predicate ValueAt<V>(bs: seq<Binding>, k: int, v: V, req: Request, id: Id, scope: Scope<V>, co: Collaborators<V>)
    requires 0 <= k < |bs|
  {
    var one := ActivateOne(bs[k], req, id, ActivateAll(bs[..k], req, id, scope, co).scope, co);
    one.Ok? && one.value.value == v
  }

  /** Position `k` of a successful map over `bs`. */
  lemma {:induction false} ActivateAllAt<V>(bs: seq<Binding>, req: Request, id: Id, scope: Scope<V>, co: Collaborators<V>, k: nat)
    requires ActivateAll(bs, req, id, scope, co).failure.None?
    requires k < |bs|
    ensures ValueAt(bs, k, ActivateAll(bs, req, id, scope, co).values[k], req, id, scope, co)
    decreases k
  {
    ActivateAllCons(bs, req, id, scope, co);
    var step := ActivateOne(bs[0], req, id, scope, co).value;
    var rest := ActivateAll(bs[1..], req, id, step.scope, co);
    assert ActivateAll(bs, req, id, scope, co).values == [step.value] + rest.values;
    if k == 0 {
      assert bs[..0] == [];
    } else {
      ActivateAllAt(bs[1..], req, id, step.scope, co, k - 1);
      var pre := bs[..k];
      assert pre[0] == bs[0] && pre[1..] == bs[1..][..k - 1];
      ActivateAllCons(pre, req, id, scope, co);
      assert ActivateAll(pre, req, id, scope, co).scope == ActivateAll(bs[1..][..k - 1], req, id, step.scope, co).scope;
    }
  }

  /** Every position of a successful map over `bs`. */
  lemma ActivateAllValues<V>(bs: seq<Binding>, req: Request, id: Id, scope: Scope<V>, co: Collaborators<V>)
    requires ActivateAll(bs, req, id, scope, co).failure.None?
    ensures var r := ActivateAll(bs, req, id, scope, co);
      forall k :: 0 <= k < |bs| ==> ValueAt(bs, k, r.values[k], req, id, scope, co)
  {
    forall k | 0 <= k < |bs| {
      ActivateAllAt(bs, req, id, scope, co, k);
    }
  }

  // ---------------------------------------------------------------------------
  // resolveParamsWithScope

  /** The outcome of one resolve call: the core's state afterwards, the scope caches
      afterwards, the bindings activated, and the value or the error thrown. */
  datatype Outcome<V> = Outcome(core: Core, scope: Scope<V>, activated: seq<Binding>, result: Result<Resolved<V>, Failure>)

  /** The request a resolve call for `params` creates. */
  function RequestFor(core: Core, params: Params): Request
  {
    NewRequest(params, core.currentRequest)
  }

  /** The new request is within the depth bound. */
  predicate DepthOk(core: Core, params: Params)
  {
    ParentDepth(core.currentRequest) + 1 <= MAX_ACTIVATION_DEPTH
  }

  /** The bindings a resolve call for `params` selects. */
  function Matches<V>(core: Core, params: Params, co: Collaborators<V>): seq<Binding>
  {
    FindAllBindingsForRequest(core, RequestFor(core, params), co.supports)
  }

  /** Whether a result is the `InjectionError` of kind `t` for the request made for `params`. */
  predicate IsInjectionError<V>(r: Result<Resolved<V>, Failure>, t: ErrorType, core: Core, params: Params)
  {
    r == Err(InjectionError(t, RequestFor(core, params)))
  }

  /** `resolveParamsWithScope(params, scope)`. */
  function ResolveParamsWithScope<V>(core: Core, params: Params, scope: Scope<V>, co: Collaborators<V>): (o: Outcome<V>)
    // The registry is never changed by resolving.
    ensures o.core.bindings == core.bindings
    // The request pointer is restored on success only; an error leaves the new request in flight.
    ensures o.result.Ok? ==> o.core == core
    ensures o.result.Err? ==> o.core.currentRequest == Some(RequestFor(core, params))
    // Depth guard, checked before anything else.
    ensures IsInjectionError(o.result, MaxActivationDepthExceeded, core, params) <==> !DepthOk(core, params)
    // Cardinality of a single-valued request.
    ensures IsInjectionError(o.result, NoMatchingBinding, core, params) <==>
      DepthOk(core, params) && !params.multiple && |Matches(core, params, co)| == 0
    ensures IsInjectionError(o.result, AmbiguousMatchingBindings, core, params) <==>
      DepthOk(core, params) && !params.multiple && |Matches(core, params, co)| > 1
    // None of the three errors touches a cache or activates anything.
    ensures o.result.Err? && o.result.error.InjectionError? ==> o.scope == scope && o.activated == []
    // Success: a single value for a single-valued request, all of them otherwise.
    ensures o.result.Ok? <==>
      && DepthOk(core, params)
      && (params.multiple || |Matches(core, params, co)| == 1)
      && ScopesAvailable(Matches(core, params, co), scope)
    ensures o.result.Ok? ==> (o.result.value.Many? <==> params.multiple)
    ensures o.result.Ok? && o.result.value.Single? ==>
      ActivateOne(Matches(core, params, co)[0], RequestFor(core, params), params.dependencyId, scope, co)
        == Ok(Step(o.result.value.value, o.scope, o.activated))
    ensures o.result.Ok? && o.result.value.Many? ==> |o.result.value.values| == |Matches(core, params, co)|
    // ... in the order of the matches: a transient match is activated afresh, and every match
    // yields what activating it gives against the caches the matches before it left behind.
    ensures o.result.Ok? && o.result.value.Many? ==>
      var m := Matches(core, params, co);
      forall k :: 0 <= k < |m| && m[k].scopeLevel.None? ==>
        o.result.value.values[k] == co.activate(m[k], RequestFor(core, params))
    ensures o.result.Ok? && o.result.value.Many? ==>
      var m := Matches(core, params, co);
      forall k :: 0 <= k < |m| ==>
        ValueAt(m, k, o.result.value.values[k], RequestFor(core, params), params.dependencyId, scope, co)
    // A `multiple` success, or a missing scope, leaves the caches and the activations of
    // the map over the matches; the latter fails with the map's error.
    ensures o.result.Ok? && o.result.value.Many? ==>
      var r := ActivateAll(Matches(core, params, co), RequestFor(core, params), params.dependencyId, scope, co);
      o.result.value.values == r.values && o.scope == r.scope && o.activated == r.activated
    ensures o.result.Err? && o.result.error.MissingScope? ==>
      var r := ActivateAll(Matches(core, params, co), RequestFor(core, params), params.dependencyId, scope, co);
      r.failure == Some(o.result.error) && o.scope == r.scope && o.activated == r.activated
    // Only the entries cached under the requested identifier can change.
    ensures OnlyKeyChanged(scope, o.scope, params.dependencyId)
    ensures multiset(o.activated) <= multiset(Matches(core, params, co))
    // Every InjectionError is raised for the request this call created.
    ensures o.result.Err? && o.result.error.InjectionError? ==> o.result.error.request == RequestFor(core, params)
  {
    var parentRequest := core.currentRequest;
    var req := NewRequest(params, parentRequest);
    var pushed := core.(currentRequest := Some(req));
    if Depth(req) > MAX_ACTIVATION_DEPTH then
      Outcome(pushed, scope, [], Err(InjectionError(MaxActivationDepthExceeded, req)))
    else
      var bs := FindAllBindingsForRequest(pushed, req, co.supports);
      assert bs == Matches(core, params, co);
      if !params.multiple && |bs| == 0 then
        Outcome(pushed, scope, [], Err(InjectionError(NoMatchingBinding, req)))
      else if !params.multiple && |bs| > 1 then
        Outcome(pushed, scope, [], Err(InjectionError(AmbiguousMatchingBindings, req)))
      else
        var run := ActivateAll(bs, req, params.dependencyId, scope, co);
        ActivatedAmongBindings(bs, req, params.dependencyId, scope, co);
        if run.failure.Some? then
          Outcome(pushed, run.scope, run.activated, Err(run.failure.value))
        else
          var restored := pushed.(currentRequest := parentRequest);
          if !params.multiple then
            assert bs == [bs[0]];
            ActivateAllSingle(bs[0], req, params.dependencyId, scope, co);
            Outcome(restored, run.scope, run.activated, Ok(Single(run.values[0])))
          else
            ActivateAllValues(bs, req, params.dependencyId, scope, co);
            Outcome(restored, run.scope, run.activated, Ok(Many(run.values)))
  }

  // ---------------------------------------------------------------------------
  // findAllBindingsForRequest as written reads `dependencyId`, a name declared nowhere
  // in the module; the intended identifier is the request's.

  /** `findAllBindingsForRequest` as written. With no global named `dependencyId` the read
      throws a ReferenceError (`None`); with one, that global's slot is searched whatever
      the request asks for. */
  function FindAllBindingsAsWritten(core: Core, req: Request, supports: (Binding, Request) -> bool,
                                    globalDependencyId: Option<Id>): (r: Option<seq<Binding>>)
    ensures r.None? <==> globalDependencyId.None?
    ensures r.Some? ==>
      var slot := GetSlot(core.bindings, globalDependencyId.value);
      && (forall b :: multiset(r.value)[b] == if supports(b, req) then multiset(slot)[b] else 0)
      && IsSubsequence(r.value, slot)
  {
    match globalDependencyId
    case None => None
    case Some(g) =>
      FilterCounts(GetSlot(core.bindings, g), Supporting(supports, req));
      FilterIsSubsequence(GetSlot(core.bindings, g), Supporting(supports, req));
      Some(Filter(GetSlot(core.bindings, g), Supporting(supports, req)))
  }

  /** A registry holding one constant binding for "a", and a request for "a" that every
      binding supports: as written the lookup throws, or searches the wrong slot, while
      the intended lookup finds the binding. */
  lemma AsWrittenLookupMissesBinding()
    ensures
      var b := Binding("a", ConstantBinding, 0, None);
      var core := Core(None, map["a" := [b]]);
      var supports := (x: Binding, r: Request) => true;
      var req := NewRequest(Params("a", false, map[]), None);
      && FindAllBindingsAsWritten(core, req, supports, None).None?
      && FindAllBindingsAsWritten(core, req, supports, Some("b")) == Some([])
      && FindAllBindingsForRequest(core, req, supports) == [b]
  {
    var b := Binding("a", ConstantBinding, 0, None);
    var supports := (x: Binding, r: Request) => true;
    var req := NewRequest(Params("a", false, map[]), None);
    assert [b][..0] == [];
    assert Filter([b], Supporting(supports, req)) == Filter([], Supporting(supports, req)) + [b];
  }
}

=== FILE: scopes.dfy ===
/** The part of a Scope the resolution core touches: the root scope's cache and the
    caches of the scopes addressed by level, each keyed by dependency identifier. */
module Scopes {
  import opened Wrappers
  import opened Requests

  /** A binding's scope level. The root-scope sentinel is a distinguished value that
      never coincides with a numbered level. */
  datatype ScopeLevel = RootScopeLevel | Level(index: int)

  /** A scope's `_cache`: produced values by dependency identifier. */
  type Cache<V> = map<Id, V>

  /** `scope._rootScope._cache` and `scope._scopesByLevel[level]._cache`. */
  datatype Scope<V> = Scope(rootCache: Cache<V>, levelCaches: map<int, Cache<V>>)

  /** The cache of the scope a binding at `level` memoizes into; `None` when
      `_scopesByLevel` has no scope at that level. */
  function CacheFor<V>(s: Scope<V>, level: ScopeLevel): (c: Option<Cache<V>>)
    ensures level.RootScopeLevel? ==> c == Some(s.rootCache)
    ensures level.Level? ==> (c.Some? <==> level.index in s.levelCaches)
    ensures level.Level? && level.index in s.levelCaches ==> c == Some(s.levelCaches[level.index])
  {
    match level
    case RootScopeLevel => Some(s.rootCache)
    case Level(i) => if i in s.levelCaches then Some(s.levelCaches[i]) else None
  }

  /** Replaces the cache at `level`, which must exist. */
  function WithCache<V>(s: Scope<V>, level: ScopeLevel, c: Cache<V>): (s': Scope<V>)
    requires CacheFor(s, level).Some?
    ensures CacheFor(s', level) == Some(c)
    ensures forall l :: l != level ==> CacheFor(s', l) == CacheFor(s, l)
    ensures s'.levelCaches.Keys == s.levelCaches.Keys
  {
    match level
    case RootScopeLevel => s.(rootCache := c)
    case Level(i) => s.(levelCaches := s.levelCaches[i := c])
  }

  /** `s'` differs from `s` at most in the entries stored under `id`: the same levels
      have scopes, and apart from `id` each level's cache holds the same entries. */
  ghost predicate OnlyKeyChanged<V>(s: Scope<V>, s': Scope<V>, id: Id)
  {
    && s'.levelCaches.Keys == s.levelCaches.Keys
    && s'.rootCache - {id} == s.rootCache - {id}
    && forall i :: i in s.levelCaches ==> s'.levelCaches[i] - {id} == s.levelCaches[i] - {id}
  }

  /** Changes confined to `id` compose. */
  lemma OnlyKeyChangedTrans<V>(s1: Scope<V>, s2: Scope<V>, s3: Scope<V>, id: Id)
    requires OnlyKeyChanged(s1, s2, id) && OnlyKeyChanged(s2, s3, id)
    ensures OnlyKeyChanged(s1, s3, id)
  {
    forall i | i in s1.levelCaches
      ensures s3.levelCaches[i] - {id} == s1.levelCaches[i] - {id}
    {
      assert i in s2.levelCaches;
    }
  }
}

=== FILE: seqs.dfy ===
/** Order-preserving filtering of sequences, the model of `Array.prototype.filter`. */
module Seqs {

  /** `a` can be obtained from `b` by deleting elements, keeping the order of the rest. */
  ghost predicate IsSubsequence<T>(a: seq<T>, b: seq<T>)
    decreases |b|
  {
    || |a| == 0
    || (&& |b| > 0
        && (|| (a[|a| - 1] == b[|b| - 1] && IsSubsequence(a[..|a| - 1], b[..|b| - 1]))
            || IsSubsequence(a, b[..|b| - 1])))
  }

  /** The elements of `s` that satisfy `p`, in their original order. */
  function Filter<T>(s: seq<T>, p: T -> bool): (r: seq<T>)
    ensures forall i :: 0 <= i < |r| ==> p(r[i])
  {
    if |s| == 0 then []
    else
      var init := Filter(s[..|s| - 1], p);
      var last := s[|s| - 1];
      if p(last) then init + [last] else init
  }

  /** Filtering keeps each satisfying element exactly as often as it occurs, and drops
      every other element. */
  lemma {:induction false} FilterCounts<T(!new)>(s: seq<T>, p: T -> bool)
    ensures forall x :: multiset(Filter(s, p))[x] == if p(x) then multiset(s)[x] else 0
    decreases |s|
  {
    if |s| > 0 {
      var init, last := s[..|s| - 1], s[|s| - 1];
      FilterCounts(init, p);
      assert s == init + [last];
      assert multiset(s) == multiset(init) + multiset{last};
    }
  }

  /** Filtering keeps the relative order of the kept elements. */
  lemma {:induction false} FilterIsSubsequence<T>(s: seq<T>, p: T -> bool)
    ensures IsSubsequence(Filter(s, p), s)
    decreases |s|
  {
    if |s| > 0 {
      var init, last := s[..|s| - 1], s[|s| - 1];
      var r := Filter(s, p);
      FilterIsSubsequence(init, p);
      if p(last) {
        assert r == Filter(init, p) + [last];
        assert r[..|r| - 1] == Filter(init, p);
      } else {
        assert r == Filter(init, p);
        if |r| > 0 {
          assert r[|r| - 1] != last;
        }
      }
    }
  }

  /** Filtering a sequence extended by one element. */
  lemma FilterSnoc<T>(s: seq<T>, x: T, p: T -> bool)
    ensures Filter(s + [x], p) == Filter(s, p) + (if p(x) then [x] else [])
  {
    assert (s + [x])[..|s + [x]| - 1] == s;
  }

  /** Concatenation is associative. */
  lemma ConcatAssoc<T>(a: seq<T>, b: seq<T>, c: seq<T>)
    ensures a + b + c == a + (b + c)
  {
  }

  /** Sub-multisets of two parts give a sub-multiset of the concatenation. */
  lemma SubMultisetAppend<T>(a: seq<T>, b: seq<T>, c: seq<T>, d: seq<T>)
    requires multiset(a) <= multiset(c) && multiset(b) <= multiset(d)
    ensures multiset(a + b) <= multiset(c + d)
  {
    assert multiset(a + b) == multiset(a) + multiset(b);
    assert multiset(c + d) == multiset(c) + multiset(d);
  }
}

=== FILE: wrappers.dfy ===
/** Optional values and results with an error channel, used throughout the model
    in place of JavaScript's `null`/`undefined` and thrown exceptions. */
module Wrappers {

  /** A value that may be absent (`null` or `undefined` in the source). */
  datatype Option<T> = None | Some(value: T)

  /** Either a value or the error the source would throw. */
  datatype Result<R, E> = Ok(value: R) | Err(error: E)
}
